=== FILE: README.md ===
# Portfolio page state machines, in Dafny

This project models the few pieces of sequential logic in a single-page
portfolio site (React, JavaScript) and proves what they promise:

- **Navbar** (`navbar.dfy`): the visibility state machine of the fixed
  navigation bar. `showNav`, `scrolled`, `lastScrollY`, `isOpen` and the
  `isNavLinkClickRef` suppression flag move under scroll events, link clicks
  and the menu button. The bar hides when the page scrolls down past 100px. It
  comes back on any upward scroll or near the top. It stays put while a link
  click's smooth scroll is running.
- **Activity** (`activity.dfy`): the GitHub section. This covers the state
  record `{loading, error, userData, repos}` through `fetchGitHubData`, where
  each request is an abstract outcome (ok, not ok with a status text, or
  rejected with a message). It also covers the render guards that choose
  between the error banner, the loading notice, the profile, the repository
  list and the "no recent repositories" message. Last come the name and avatar
  fallbacks and the five-year selector.
- **Work** (`work.dfy`): the timeline's ref list. It is reset on every render
  and filled by `addToRefs`, which ignores `null` and skips elements already
  present. The module also covers the layout, which alternates by index parity.
- **Liquid** (`liquid.dfy`): the ripple card. Simple mode records the pointer,
  with the `(-1, -1)` sentinel mapped to a centred origin. Advanced mode
  appends one ripple per mouse move and removes it again by id.
- `optional.dfy` holds `Option` and JavaScript truthiness of optional strings.

Every handler is a pure function from state to state. In Navbar and Liquid,
event sequences are folds of a `Step` function, and the lemmas quantify over
all of them. In Work, a render's calls of `addToRefs` are folded by
`Register`; Activity models one fetch and its rendering.

When only the repository request fails, the code keeps the profile it has
just stored, so the error banner, the profile and the "no recent
repositories" message show together (`Activity.ReposFailureView`).

## Model

| member | source | states |
|---|---|---|
| Navbar.Initial | src/components/navbar/navbar.jsx:6-10 | the bar mounts shown, menu closed, flag clear, at position 0 and not "scrolled" |
| Navbar.HandleScroll | src/components/navbar/navbar.jsx:26-40 | after a scroll to y: lastScrollY = y; scrolled iff y > 10; at or below 100 or moving up shows the bar and clears the flag; moving down past 100 hides it unless the flag is set, in which case bar and flag are unchanged; no movement above 100 changes neither; the bar ends hidden exactly in those cases |
| Navbar.ToggleMenu | src/components/navbar/navbar.jsx:152 | the menu button negates isOpen and changes nothing else |
| Navbar.HandleNavLinkClick | src/components/navbar/navbar.jsx:54-67 | a click whose target id is on the page sets the flag, closes the menu and scrolls to the target; any other click changes nothing; the browser's own navigation never happens |
| Navbar.FollowNavLink | src/components/navbar/navbar.jsx:54-67 | corrected handler: in-page links behave as above, other links follow their href; visibility and position never change, and the flag is only ever newly set by a resolved target |
| Navbar.ResumeLinkIsDead | src/components/navbar/navbar.jsx:51-58 | as written, clicking "Resume" on a page without an element id "Resume_nancy.pdf" leaves the state unchanged and does nothing |
| Navbar.ProjectsLinkIsDead | src/components/navbar/navbar.jsx:46-60 | as written, clicking "Projects" on a page with the repository's element ids does nothing |
| Navbar.EveryNavItemActs | src/components/navbar/navbar.jsx:46-67 | with the corrected handler, every entry of the bar scrolls or navigates when the page has the home, projects, about and contact sections |
| Navbar.FixedPageHasEverySection | src/components/navbar/navbar.jsx:46-67 | once the projects section carries its id, no entry of the bar is dead |
| Navbar.FixKeepsState | src/components/navbar/navbar.jsx:54-67 | for in-page links and links with no target, the correction changes only the browser effect, never the component state |
| Navbar.Step | src/components/navbar/navbar.jsx:88-157 | while the bar is in the page, including its exit animation after it was hidden, a click runs the link handler as written and a menu press runs the toggle and changes nothing else, and both keep the bar in the page; while it is not, both do nothing; a scroll runs the scroll handler and puts a shown bar back in the page; the end of the exit animation removes a hidden bar; non-scroll events never move visibility, position or scrolled |
| Navbar.StepPreservesInv | src/components/navbar/navbar.jsx:26-40 | each event keeps: scrolled agrees with the last position, the bar is shown at or below 100, and a shown bar is in the page |
| Navbar.RunPreservesInv | src/components/navbar/navbar.jsx:26-40 | the invariant holds after any sequence of events |
| Navbar.ReachableInv | src/components/navbar/navbar.jsx:6-40 | every state reachable from mounting satisfies the invariant |
| Navbar.ClickDuringExit | src/components/navbar/navbar.jsx:54-58 | a resolved link clicked during the exit animation sets the flag while the bar is hidden, and a following downward scroll past 100 keeps it hidden with the flag still set |
| Navbar.TargetId | src/components/navbar/navbar.jsx:56 | the target id is the href without its first character, and empty for an empty href |
| Navbar.Resolves | src/components/navbar/navbar.jsx:56-58 | a target resolves only if it is a non-empty id present on the page |
| Navbar.HideThenShow | src/components/navbar/navbar.jsx:29-35 | with the flag clear, a downward scroll past 100 hides the bar and any later upward scroll shows it again |
| Navbar.ScrollIdempotent | src/components/navbar/navbar.jsx:26-40 | a repeated scroll event at the same position changes nothing further |
| Navbar.ClickSuppressesHide | src/components/navbar/navbar.jsx:29-36 | after a resolved link click, any run of downward scrolls above 100 keeps the bar shown and the flag set |
| Activity.Initial | src/components/github/activity.jsx:92-95 | the section mounts not loading, with no error, no profile and no repositories |
| Activity.FailureMessage | src/components/github/activity.jsx:117-135 | a non-ok response yields the prefix followed by its status text; a rejection yields its own message |
| Activity.BeginFetch | src/components/github/activity.jsx:107-110 | starting a fetch sets loading and clears error, profile and repositories |
| Activity.ProfileSettled | src/components/github/activity.jsx:114-121 | a good profile response is stored with loading still on; a failed one sets the "User not found: " error and ends loading |
| Activity.ReposSettled | src/components/github/activity.jsx:124-139 | loading ends and the profile is kept; a good response replaces the repositories, a failed one sets the "Failed to fetch repositories: " error and keeps them |
| Activity.FetchGitHubData | src/components/github/activity.jsx:106-140 | loading is off after every fetch; profile failure: error set, no profile, no repositories; repository failure: profile kept, error set, no repositories; both good: profile and repositories stored, no error |
| Activity.FetchForgetsPrior | src/components/github/activity.jsx:106-110 | the result of a fetch does not depend on the state it started from |
| Activity.ProfileFailureIgnoresRepos | src/components/github/activity.jsx:117-126 | after a profile failure the repository request's outcome has no influence |
| Activity.ToUpper | src/components/github/activity.jsx:235-237 | lower-case ASCII letters map to the matching capital, everything else is unchanged |
| Activity.AvatarInitial | src/components/github/activity.jsx:235-237 | empty for an empty user name, otherwise the upper-cased first character |
| Activity.PlaceholderAvatar | src/components/github/activity.jsx:235-245 | the placeholder URL is the placehold.co base followed by the avatar initial |
| Activity.AvatarSrc | src/components/github/activity.jsx:233-246 | a non-empty avatar_url is used as it is, otherwise the placeholder for the user name |
| Activity.DisplayName | src/components/github/activity.jsx:250 | the profile's name when it is non-empty, otherwise the user name |
| Activity.DisplayNameNeverBlank | src/components/github/activity.jsx:250 | the heading is never blank for a non-empty user name |
| Activity.ItemOf | src/components/github/activity.jsx:409-458 | a list item keeps the name, URL, star and fork counts, falls back to "No description provided." and shows the repository's language exactly when it is non-empty |
| Activity.Render | src/components/github/activity.jsx:212-466 | at most three blocks; a non-empty error puts its banner first; with loading done and a profile present, the profile summary with the fallback name and the "@" handle comes just before the repository block |
| Activity.RenderGuards | src/components/github/activity.jsx:212-466 | the profile shows iff not loading and a profile is present; the list iff additionally there are repositories; the empty message iff there are none; the notice iff loading; the banner iff the error is a non-empty string |
| Activity.RepoListMatchesRepos | src/components/github/activity.jsx:407-461 | the list shows one item per repository, in the order received |
| Activity.FetchingShowsOnlyNotice | src/components/github/activity.jsx:222-228 | while a fetch is in flight the section shows only the loading notice |
| Activity.ProfileFailureView | src/components/github/activity.jsx:117-118 | a failed profile request with a non-empty message shows the error banner alone |
| Activity.NotOkMessageNonEmpty | src/components/github/activity.jsx:117-118 | a non-ok profile response always has a non-empty message |
| Activity.EmptyRejectionShowsNothing | src/components/github/activity.jsx:134-135 | a rejection with an empty message leaves the section blank: no banner, no notice, no profile |
| Activity.ReposFailureView | src/components/github/activity.jsx:121-135 | after a good profile and a failed repository request, the banner, the profile and the empty message show together |
| Activity.SuccessView | src/components/github/activity.jsx:121-138 | after two good responses: the profile with its avatar, then the list iff repositories came back, else the empty message |
| Activity.GenerateYearOptions | src/components/github/activity.jsx:143-151 | exactly five years, the current year minus 0 to 4, strictly descending from the current year |
| Activity.DefaultYearOffered | src/components/github/activity.jsx:96 | the year selected on mount is among the options offered |
| Work.AddToRefs | src/components/work/Work.jsx:60-64 | null leaves the list unchanged; an element ends up in the list, appended at the end if new and otherwise not added again; no other element appears; a duplicate-free list stays duplicate-free |
| Work.Register | src/components/work/Work.jsx:135-138 | a run of ref callback calls only appends: the old list is a prefix and at most one element is added per call |
| Work.RegisterMembers | src/components/work/Work.jsx:60-64 | after the calls, the list holds what it held plus exactly the non-null elements passed, without duplicates |
| Work.RenderRefs | src/components/work/Work.jsx:57-64 | after a render the list holds exactly this render's non-null elements, each once, whatever the previous list was |
| Work.RegisterKnown | src/components/work/Work.jsx:61 | calls for elements already registered change nothing |
| Work.RegisterIdempotent | src/components/work/Work.jsx:61 | repeating the same calls in one render does not grow the list |
| Work.RegisterDistinct | src/components/work/Work.jsx:60-64 | distinct new elements are appended in call order |
| Work.RenderListsCards | src/components/work/Work.jsx:135-138 | one distinct card per entry yields the cards in timeline order |
| Work.CardLayout | src/components/work/Work.jsx:139-152 | even positions get the forward row with right-aligned text, odd positions the reversed row with left-aligned text |
| Work.LayoutAlternates | src/components/work/Work.jsx:140-151 | consecutive entries differ in both row direction and text side; every second entry repeats |
| Liquid.ModeOf | src/components/skills/liquid.jsx:67-86 | simple mode exactly when the prop is "simple"; any other value behaves as advanced |
| Liquid.DefaultIsSimple | src/components/skills/liquid.jsx:67 | a card given no mode prop is a simple card |
| Liquid.Initial | src/components/skills/liquid.jsx:75-76 | the card mounts at the no-pointer sentinel with no ripples |
| Liquid.HandleMouseMove | src/components/skills/liquid.jsx:79-96 | with no card element nothing changes; simple mode sets the coordinates relative to the card and keeps the ripples; advanced mode keeps the coordinates and appends exactly one ripple, stamped with the clock, after the unchanged earlier ones |
| Liquid.WithoutId | src/components/skills/liquid.jsx:93 | the filter never lengthens the list and leaves no ripple with the given id |
| Liquid.WithoutIdMembers | src/components/skills/liquid.jsx:93 | the filter keeps exactly the ripples with a different id |
| Liquid.RemoveRipple | src/components/skills/liquid.jsx:92-94 | the timer removes exactly the ripples with its id and leaves the coordinates alone |
| Liquid.HandleMouseLeave | src/components/skills/liquid.jsx:98-102 | simple mode resets the coordinates to (-1, -1) and keeps the ripples; advanced mode changes nothing |
| Liquid.OriginOf | src/components/skills/liquid.jsx:118-119 | the centre exactly on the -1 sentinel, otherwise the pixel coordinate |
| Liquid.LeaveCentresOrigin | src/components/skills/liquid.jsx:98-119 | after the pointer leaves a simple card, the liquid origin is centred on both axes |
| Liquid.MoveSetsOrigin | src/components/skills/liquid.jsx:79-119 | after a move over a simple card, the origin is the pointer position |
| Liquid.WithoutIdAppend | src/components/skills/liquid.jsx:93 | filtering distributes over concatenation, so the survivors keep their order |
| Liquid.WithoutAbsentId | src/components/skills/liquid.jsx:93 | removing an id that no ripple carries changes nothing |
| Liquid.AddThenExpire | src/components/skills/liquid.jsx:88-94 | a ripple added with a fresh id and then expired leaves the card exactly as before |
| Liquid.RemoveOwn | src/components/skills/liquid.jsx:88-94 | with ascending ids, a timer removes exactly its own ripple and keeps the rest in order |
| Liquid.Step | src/components/skills/liquid.jsx:88-108 | a move over a measured card records the relative pointer in simple mode and appends one ripple at the relative pointer position, stamped with the clock, in advanced mode, and does nothing without a card; a leave event is the leave handler; an expiry keeps the coordinates and removes exactly the ripples with its id |
| Liquid.SimpleHasNoRipples | src/components/skills/liquid.jsx:86-102 | a simple card never holds a ripple, whatever the events |
| Liquid.AdvancedKeepsCoords | src/components/skills/liquid.jsx:86-102 | an advanced card never changes its recorded coordinates |
| Liquid.WithoutIdAscending | src/components/skills/liquid.jsx:93 | removal keeps ripple ids ascending |
| Liquid.StepKeepsAscending | src/components/skills/liquid.jsx:88-94 | with a clock that moves forward between moves, every event keeps ripple ids ascending and therefore distinct |

## Findings

| source | as written | input that shows it | evidently intended | confidence | as-written member | corrected member |
|---|---|---|---|---|---|---|
| src/components/navbar/navbar.jsx:51-58 | `handleNavLinkClick` prevents the default navigation for every entry. It then acts only if an element with the id after the first character exists. | click "Resume" (`/Resume_nancy.pdf`): the handler looks up id `Resume_nancy.pdf`, finds nothing, and the page neither scrolls nor opens the PDF | the Resume entry opens the PDF; only in-page `#` links are intercepted | high; not executed | Navbar.ResumeLinkIsDead | Navbar.EveryNavItemActs |
| src/components/navbar/navbar.jsx:48 | the "Projects" entry points at `#projects`, but no component of the repository gives any element the id `projects` (the ids present are home, about, tsparticles, skills, work-experience, contact, name, email, message) | click "Projects": the lookup fails and nothing happens | the projects section carries the id `projects`, so the click scrolls to it | medium; not executed; page ids read from the component files only | Navbar.ProjectsLinkIsDead | Navbar.FixedPageHasEverySection |

`Navbar.Step` runs the handler as written. `Navbar.FixKeepsState` shows that,
for in-page links and links whose target is missing, the corrected
`FollowNavLink` leaves the component's state as the original handler does;
that covers the five entries of the bar on a page without an element id
`Resume_nancy.pdf`. The two differ only in the browser effect there.

## Left out

- Scroll positions, pointer coordinates and card boxes are integers. In the browser they are floating-point pixels. The 100px and 10px thresholds and the `-1` sentinel are compared exactly as in the code.
- The scroll listener is re-registered whenever `lastScrollY` changes (navbar.jsx:44). Events delivered before re-registration would see the old position. That is a timing race, and the model treats each event in order.
- The menu button's centre (navbar.jsx:15-23) and the clip-path variants only place an animation. The 350ms `setTimeout` before `scrollIntoView` is modelled only as the `ScrollTo` effect. The scroll itself arrives as later `Scroll` events.
- The HTTP requests are not performed. Each request is an abstract `Response`, and the JSON shape is taken as given. The section's user name never changes in the code (`setUsername` is never called), so the stale-response race on a user name change cannot arise and is not modelled.
- Activity.ToUpper: upper-cases ASCII letters only, where `toUpperCase` covers all of Unicode. GitHub user names are ASCII letters, digits and hyphens.
- The profile's bio, location, blog and statistics blocks (activity.jsx:253-345) are plain conditional text and are not modelled beyond the profile summary's counts. The contribution calendar widget, the `parseInt` of the selected year and the repository date formatting (`toLocaleDateString`) are also left out.
- The avatar `onError` handler is modelled only by the placeholder URL it swaps in. Its one-shot `onerror = null` guard is not.
- All GSAP, ScrollTrigger and framer-motion configuration (activity.jsx:159-198, Work.jsx:66-116, the other sections) and the styled-components props are left out. They configure libraries and decide nothing.
- Two advanced-mode moves in the same millisecond get the same ripple id. The model allows it. `Liquid.RemoveOwn` and `Liquid.StepKeepsAscending` state what holds when the clock moves forward between moves.
- The other sections are not modelled: the contact form, the projects' radial layout, the static content arrays, the footer and the root composition.

=== FILE: activity.dfy ===
/**
 * The GitHub activity section (src/components/github/activity.jsx): the
 * state machine of `fetchGitHubData`, the render guards that choose what the
 * section shows, the display fallbacks, and `generateYearOptions`.
 *
 * The two HTTP requests are not performed: each is an abstract `Response`
 * handed in by the caller.
 */
module Activity {
  import opened Optional

  /** The fields of the profile JSON the section reads. */
  datatype Profile = Profile(
    name: Option<string>,
    avatarUrl: Option<string>,
    bio: Option<string>,
    location: Option<string>,
    blog: Option<string>,
    publicRepos: int,
    followers: int)

  /** The fields of one repository summary the section reads. */
  datatype Repo = Repo(
    id: int,
    name: string,
    description: Option<string>,
    language: Option<string>,
    stars: int,
    forks: int,
    htmlUrl: string)

  /**
   * How one request ends: a 2xx response whose JSON body parsed, a response
   * that is not ok (with its status text), or a rejected promise (network
   * failure or unparsable body) with the rejection's message.
   */
  datatype Response<T> = Ok(body: T) | NotOk(statusText: string) | Rejected(message: string)

  datatype ActivityState = ActivityState(
    loading: bool,
    error: Option<string>,
    userData: Option<Profile>,
    repos: seq<Repo>)

  const ProfileErrorPrefix: string := "User not found: "
  const ReposErrorPrefix: string := "Failed to fetch repositories: "

  /** The state the component mounts with. */
  function Initial(): (s: ActivityState)
    ensures !s.loading && s.error.None? && s.userData.None? && s.repos == []
  {
    ActivityState(false, None, None, [])
  }

  /** The message `catch` stores for a failed request. */
  function FailureMessage<T>(prefix: string, r: Response<T>): (m: string)
    requires !r.Ok?
    ensures r.NotOk? ==> m == prefix + r.statusText
    ensures r.Rejected? ==> m == r.message
  {
    match r
    case NotOk(text) => prefix + text
    case Rejected(message) => message
  }

  /** The four setters before the first `await`. */
  function BeginFetch(s: ActivityState): (t: ActivityState)
    ensures t.loading && t.error.None? && t.userData.None? && t.repos == []
  {
    ActivityState(true, None, None, [])
  }

  /** The profile request settles: store the profile, or fail the whole fetch. */
  function ProfileSettled(s: ActivityState, r: Response<Profile>): (t: ActivityState)
    ensures r.Ok? ==> t == s.(userData := Some(r.body))
    ensures !r.Ok? ==> t == s.(error := Some(FailureMessage(ProfileErrorPrefix, r)), loading := false)
  {
    match r
    case Ok(p) => s.(userData := Some(p))
    case _ => s.(error := Some(FailureMessage(ProfileErrorPrefix, r)), loading := false)
  }

  /** The repository request settles; `finally` clears `loading` either way. */
  function ReposSettled(s: ActivityState, r: Response<seq<Repo>>): (t: ActivityState)
    ensures !t.loading && t.userData == s.userData
    ensures r.Ok? ==> t.repos == r.body && t.error == s.error
    ensures !r.Ok? ==> t.repos == s.repos && t.error == Some(FailureMessage(ReposErrorPrefix, r))
  {
    match r
    case Ok(rs) => s.(repos := rs, loading := false)
    case _ => s.(error := Some(FailureMessage(ReposErrorPrefix, r)), loading := false)
  }

  /**
   * One complete `fetchGitHubData`. The repository request is only made
   * after the profile request succeeded, so `repos` is not looked at otherwise.
   */
  function FetchGitHubData(s: ActivityState, profile: Response<Profile>, repos: Response<seq<Repo>>): (t: ActivityState)
    ensures !t.loading
    ensures !profile.Ok? ==>
      t.error == Some(FailureMessage(ProfileErrorPrefix, profile)) && t.userData.None? && t.repos == []
    ensures profile.Ok? && !repos.Ok? ==>
      t.error == Some(FailureMessage(ReposErrorPrefix, repos)) && t.userData == Some(profile.body) && t.repos == []
    ensures profile.Ok? && repos.Ok? ==>
      t.error.None? && t.userData == Some(profile.body) && t.repos == repos.body
  {
    var started := BeginFetch(s);
    var afterProfile := ProfileSettled(started, profile);
    if profile.Ok? then ReposSettled(afterProfile, repos) else afterProfile
  }

  /** Every fetch starts from empty state: what was shown before does not leak into the result. */
  lemma FetchForgetsPrior(s: ActivityState, s': ActivityState, profile: Response<Profile>, repos: Response<seq<Repo>>)
    ensures FetchGitHubData(s, profile, repos) == FetchGitHubData(s', profile, repos)
  {
  }

  /** When the profile request fails, whatever the repository request would have answered is irrelevant. */
  lemma ProfileFailureIgnoresRepos(s: ActivityState, profile: Response<Profile>, repos: Response<seq<Repo>>, repos': Response<seq<Repo>>)
    requires !profile.Ok?
    ensures FetchGitHubData(s, profile, repos) == FetchGitHubData(s, profile, repos')
  {
  }

  // ---------------------------------------------------------------------
  // Rendering

  const PlaceholderAvatarBase: string := "https://placehold.co/128x128/333333/dddddd?text="
  const NoDescription: string := "No description provided."

  /** `toUpperCase` on one character, for the ASCII letters GitHub allows in user names. */
  function ToUpper(c: char): (u: char)
    ensures 'a' <= c <= 'z' ==> 'A' <= u <= 'Z' && u as int - 'A' as int == c as int - 'a' as int
    ensures !('a' <= c <= 'z') ==> u == c
  {
    if 'a' <= c <= 'z' then (c as int - 'a' as int + 'A' as int) as char else c
  }

  /** `username.charAt(0).toUpperCase()`: empty for the empty name. */
  function AvatarInitial(username: string): (r: string)
    ensures |username| == 0 <==> r == ""
    ensures |username| > 0 ==> r == [ToUpper(username[0])]
  {
    if |username| == 0 then "" else [ToUpper(username[0])]
  }

  function PlaceholderAvatar(username: string): (url: string)
    ensures |url| == |PlaceholderAvatarBase| + |AvatarInitial(username)|
    ensures url[..|PlaceholderAvatarBase|] == PlaceholderAvatarBase
    ensures url[|PlaceholderAvatarBase|..] == AvatarInitial(username)
  {
    PlaceholderAvatarBase + AvatarInitial(username)
  }

  /** The avatar image source: the profile's avatar URL when truthy, else the placeholder. */
  function AvatarSrc(p: Profile, username: string): (url: string)
    ensures Truthy(p.avatarUrl) ==> url == p.avatarUrl.value
    ensures !Truthy(p.avatarUrl) ==> url == PlaceholderAvatar(username)
  {
    if Truthy(p.avatarUrl) then p.avatarUrl.value else PlaceholderAvatar(username)
  }

  /** The heading: `userData.name || username`. */
  function DisplayName(p: Profile, username: string): (name: string)
    ensures Truthy(p.name) ==> name == p.name.value
    ensures !Truthy(p.name) ==> name == username
  {
    if Truthy(p.name) then p.name.value else username
  }

  /** The heading is never blank for a non-empty user name, whatever the profile says. */
  lemma DisplayNameNeverBlank(p: Profile, username: string)
    requires username != ""
    ensures DisplayName(p, username) != ""
  {
  }

  datatype RepoItem = RepoItem(name: string, description: string, language: Option<string>, stars: int, forks: int, url: string)

  /** One `<li>` of the recent-repositories list. */
  function ItemOf(r: Repo): (item: RepoItem)
    ensures item.name == r.name && item.url == r.htmlUrl
    ensures item.description != ""
    ensures Truthy(r.description) ==> item.description == r.description.value
    ensures !Truthy(r.description) ==> item.description == NoDescription
    ensures item.language.Some? <==> Truthy(r.language)
    ensures Truthy(r.language) ==> item.language == r.language
    ensures item.stars == r.stars && item.forks == r.forks
  {
    RepoItem(r.name,
             if Truthy(r.description) then r.description.value else NoDescription,
             if Truthy(r.language) then r.language else None,
             r.stars, r.forks, r.htmlUrl)
  }

  /** The blocks of the section, top to bottom. */
  datatype Block =
    | ErrorBanner(message: string)
    | LoadingNotice
    | ProfileSummary(displayName: string, handle: string, avatarSrc: string, publicRepos: int, followers: int)
    | RecentRepos(items: seq<RepoItem>)
    | NoRecentRepos

  /** The JSX of the section: three independent guards, the last with an inner choice. */
  function Render(s: ActivityState, username: string): (bs: seq<Block>)
    ensures |bs| <= 3
    ensures Truthy(s.error) ==> |bs| > 0 && bs[0] == ErrorBanner(s.error.value)
    ensures !s.loading && s.userData.Some? ==>
      |bs| >= 2 && bs[|bs| - 2].ProfileSummary?
      && bs[|bs| - 2].displayName == DisplayName(s.userData.value, username)
      && bs[|bs| - 2].handle == "@" + username
      && (bs[|bs| - 1].RecentRepos? <==> |s.repos| > 0)
  {
    (if Truthy(s.error) then [ErrorBanner(s.error.value)] else [])
    + (if s.loading then [LoadingNotice] else [])
    + (if !s.loading && s.userData.Some? then
         var p := s.userData.value;
         [ProfileSummary(DisplayName(p, username), "@" + username, AvatarSrc(p, username), p.publicRepos, p.followers)]
         + (if |s.repos| > 0 then [RecentRepos(seq(|s.repos|, i requires 0 <= i < |s.repos| => ItemOf(s.repos[i])))]
            else [NoRecentRepos])
       else [])
  }

  predicate HasProfile(bs: seq<Block>) { exists b :: b in bs && b.ProfileSummary? }
  predicate HasRepoList(bs: seq<Block>) { exists b :: b in bs && b.RecentRepos? }
  predicate HasErrorBanner(bs: seq<Block>) { exists b :: b in bs && b.ErrorBanner? }

  /**
   * The render guards: the profile shows exactly when loading is over and a
   * profile is present; inside it, the list shows exactly when there are
   * repositories, and otherwise the "no recent repositories" message shows.
   */
  lemma RenderGuards(s: ActivityState, username: string)
    ensures HasProfile(Render(s, username)) <==> !s.loading && s.userData.Some?
    ensures HasRepoList(Render(s, username)) <==> !s.loading && s.userData.Some? && |s.repos| > 0
    ensures NoRecentRepos in Render(s, username) <==> !s.loading && s.userData.Some? && |s.repos| == 0
    ensures LoadingNotice in Render(s, username) <==> s.loading
    ensures HasErrorBanner(Render(s, username)) <==> Truthy(s.error)
  {
    var bs := Render(s, username);
    if !s.loading && s.userData.Some? {
      var p := s.userData.value;
      var summary := ProfileSummary(DisplayName(p, username), "@" + username, AvatarSrc(p, username), p.publicRepos, p.followers);
      assert summary in bs;
      if |s.repos| > 0 {
        assert bs[|bs| - 1].RecentRepos?;
      }
    }
    if Truthy(s.error) {
      assert bs[0] == ErrorBanner(s.error.value);
    }
  }

  /** The list renders the repositories exactly, in the order the API returned them. */
  lemma RepoListMatchesRepos(s: ActivityState, username: string)
    requires !s.loading && s.userData.Some? && |s.repos| > 0
    ensures var bs := Render(s, username);
      bs[|bs| - 1].RecentRepos?
      && |bs[|bs| - 1].items| == |s.repos|
      && forall i :: 0 <= i < |s.repos| ==> bs[|bs| - 1].items[i] == ItemOf(s.repos[i])
  {
  }

  /** While a fetch is in flight only the loading notice shows. */
  lemma FetchingShowsOnlyNotice(s: ActivityState, username: string)
    ensures Render(BeginFetch(s), username) == [LoadingNotice]
  {
  }

  /** A failed profile request shows the error banner alone: no profile, no repositories. */
  lemma ProfileFailureView(s: ActivityState, profile: Response<Profile>, repos: Response<seq<Repo>>, username: string)
    requires !profile.Ok?
    requires FailureMessage(ProfileErrorPrefix, profile) != ""
    ensures Render(FetchGitHubData(s, profile, repos), username)
      == [ErrorBanner(FailureMessage(ProfileErrorPrefix, profile))]
  {
  }

  /** A non-ok profile response always carries a message, so it always shows the banner. */
  lemma NotOkMessageNonEmpty(statusText: string)
    ensures FailureMessage<Profile>(ProfileErrorPrefix, NotOk(statusText)) != ""
  {
    assert FailureMessage<Profile>(ProfileErrorPrefix, NotOk(statusText))[0] == 'U';
  }

  /**
   * A rejection whose message is empty is falsy for the banner's guard: the
   * section then shows nothing at all, neither error nor profile.
   */
  lemma EmptyRejectionShowsNothing(s: ActivityState, repos: Response<seq<Repo>>, username: string)
    ensures Render(FetchGitHubData(s, Rejected(""), repos), username) == []
  {
  }

  /**
   * A failed repository request after a good profile keeps the profile: the
   * banner, the profile and the "no recent repositories" message show together.
   */
  lemma ReposFailureView(s: ActivityState, p: Profile, repos: Response<seq<Repo>>, username: string)
    requires !repos.Ok?
    requires FailureMessage(ReposErrorPrefix, repos) != ""
    ensures var bs := Render(FetchGitHubData(s, Ok(p), repos), username);
      |bs| == 3 && bs[0] == ErrorBanner(FailureMessage(ReposErrorPrefix, repos))
      && bs[1].ProfileSummary? && bs[1].displayName == DisplayName(p, username)
      && bs[2] == NoRecentRepos
  {
  }

  /** Both requests succeed: no banner, the profile, and the list or the empty message. */
  lemma SuccessView(s: ActivityState, p: Profile, rs: seq<Repo>, username: string)
    ensures var bs := Render(FetchGitHubData(s, Ok(p), Ok(rs)), username);
      |bs| == 2 && bs[0].ProfileSummary? && bs[0].avatarSrc == AvatarSrc(p, username)
      && (|rs| > 0 <==> bs[1].RecentRepos?)
      && (|rs| == 0 <==> bs[1] == NoRecentRepos)
  {
  }

  // ---------------------------------------------------------------------
  // The contributions year selector

  /** `generateYearOptions`, with the clock's current year as a parameter. */
  method GenerateYearOptions(currentYear: int) returns (years: seq<int>)
    ensures |years| == 5
    ensures forall i :: 0 <= i < |years| ==> years[i] == currentYear - i
    ensures forall i, j :: 0 <= i < j < |years| ==> years[i] > years[j]
    ensures years[0] == currentYear
  {
    years := [];
    var i := 0;
    while i < 5
      invariant 0 <= i <= 5
      invariant |years| == i
      invariant forall k :: 0 <= k < i ==> years[k] == currentYear - k
    {
      years := years + [currentYear - i];
      i := i + 1;
    }
  }

  /** The year selected on mount (the current year) is one of the options offered. */
  method DefaultYearOffered(currentYear: int) returns (offered: bool)
    ensures offered
  {
    var years := GenerateYearOptions(currentYear);
    offered := currentYear in years;
  }
}

=== FILE: liquid.dfy ===
/**
 * The ripple card (src/components/skills/liquid.jsx). In simple mode the card
 * remembers the pointer position, with `(-1, -1)` meaning "no pointer", and
 * the liquid layer grows from it. In advanced mode every mouse move adds a
 * ripple, which a timer removes again by its id.
 *
 * The clock (`Date.now()`) and the card's bounding box are parameters; the
 * one-second timer is the explicit `Expire` event.
 */
module Liquid {
  import opened Optional

  datatype Mode = Simple | Advanced

  /** The `mode` prop's default. */
  const DefaultMode: string := "simple"

  /** `mode === 'simple'` decides; any other prop value behaves as advanced. */
  function ModeOf(prop: string): (m: Mode)
    ensures m == Simple <==> prop == "simple"
  {
    if prop == "simple" then Simple else Advanced
  }

  /** A card given no `mode` prop is a simple card. */
  lemma DefaultIsSimple()
    ensures ModeOf(DefaultMode) == Simple
  {
  }

  datatype Point = Point(x: int, y: int)

  /** The sentinel for "no pointer over the card". */
  const NoPointer: Point := Point(-1, -1)

  datatype Ripple = Ripple(x: int, y: int, id: int)

  datatype CardState = CardState(coords: Point, ripples: seq<Ripple>)

  /** The card's bounding box, as far as the handler uses it. */
  datatype Rect = Rect(left: int, top: int)

  function Initial(): (s: CardState)
    ensures s.coords == NoPointer && s.ripples == []
  {
    CardState(NoPointer, [])
  }

  /**
   * `handleMouseMove`. `card` is the card element's box, `None` while the ref
   * is not attached; `now` is the clock, which becomes the ripple's id.
   */
  function HandleMouseMove(s: CardState, mode: Mode, card: Option<Rect>, clientX: int, clientY: int, now: int): (t: CardState)
    ensures card.None? ==> t == s
    ensures card.Some? && mode == Simple ==>
      t.coords == Point(clientX - card.value.left, clientY - card.value.top) && t.ripples == s.ripples
    ensures card.Some? && mode == Advanced ==>
      && t.coords == s.coords
      && |t.ripples| == |s.ripples| + 1
      && t.ripples[..|s.ripples|] == s.ripples
      && t.ripples[|s.ripples|] == Ripple(clientX - card.value.left, clientY - card.value.top, now)
  {
    match card
    case None => s
    case Some(rect) =>
      var x, y := clientX - rect.left, clientY - rect.top;
      if mode == Simple then s.(coords := Point(x, y))
      else s.(ripples := s.ripples + [Ripple(x, y, now)])
  }

  /** `prev.filter(r => r.id !== id)`. */
  function WithoutId(rs: seq<Ripple>, id: int): (r: seq<Ripple>)
    ensures |r| <= |rs|
    ensures forall k :: 0 <= k < |r| ==> r[k].id != id
    decreases |rs|
  {
    if |rs| == 0 then []
    else (if rs[0].id == id then [] else [rs[0]]) + WithoutId(rs[1..], id)
  }

  /** The survivors are exactly the ripples with another id. */
  lemma {:induction false} WithoutIdMembers(rs: seq<Ripple>, id: int)
    ensures forall q :: q in WithoutId(rs, id) <==> q in rs && q.id != id
    decreases |rs|
  {
    if |rs| > 0 {
      WithoutIdMembers(rs[1..], id);
      assert forall q :: q in rs <==> q == rs[0] || q in rs[1..];
    }
  }

  /** The timer callback: drop the ripple with this id, touch nothing else. */
  function RemoveRipple(s: CardState, id: int): (t: CardState)
    ensures t.coords == s.coords
    ensures forall q :: q in t.ripples <==> q in s.ripples && q.id != id
  {
    WithoutIdMembers(s.ripples, id);
    s.(ripples := WithoutId(s.ripples, id))
  }

  /** `handleMouseLeave`: only simple mode forgets the pointer. */
  function HandleMouseLeave(s: CardState, mode: Mode): (t: CardState)
    ensures mode == Simple ==> t.coords == NoPointer && t.ripples == s.ripples
    ensures mode == Advanced ==> t == s
  {
    if mode == Simple then s.(coords := NoPointer) else s
  }

  /** One axis of the liquid layer's `clip-path` origin. */
  datatype Origin = Centre | Pixels(px: int)

  /** `c !== -1 ? `${c}px` : '50%'`. */
  function OriginOf(c: int): (o: Origin)
    ensures o == Centre <==> c == -1
    ensures c != -1 ==> o == Pixels(c)
  {
    if c != -1 then Pixels(c) else Centre
  }

  /** After the pointer leaves a simple card the liquid grows from the centre again. */
  lemma LeaveCentresOrigin(s: CardState)
    ensures var t := HandleMouseLeave(s, Simple);
      OriginOf(t.coords.x) == Centre && OriginOf(t.coords.y) == Centre
  {
  }

  /** A move over a simple card puts the origin under the pointer (off the sentinel). */
  lemma MoveSetsOrigin(s: CardState, rect: Rect, clientX: int, clientY: int, now: int)
    requires clientX - rect.left != -1 && clientY - rect.top != -1
    ensures var t := HandleMouseMove(s, Simple, Some(rect), clientX, clientY, now);
      OriginOf(t.coords.x) == Pixels(clientX - rect.left) && OriginOf(t.coords.y) == Pixels(clientY - rect.top)
  {
  }

  // ---------------------------------------------------------------------
  // Removal by id

  /** Filtering distributes over concatenation: the survivors keep their order. */
  lemma {:induction false} WithoutIdAppend(a: seq<Ripple>, b: seq<Ripple>, id: int)
    ensures WithoutId(a + b, id) == WithoutId(a, id) + WithoutId(b, id)
    decreases |a|
  {
    if |a| == 0 {
      assert a + b == b;
    } else {
      assert (a + b)[0] == a[0];
      assert (a + b)[1..] == a[1..] + b;
      WithoutIdAppend(a[1..], b, id);
      var head := if a[0].id == id then [] else [a[0]];
      assert WithoutId(a + b, id) == head + (WithoutId(a[1..], id) + WithoutId(b, id));
      assert WithoutId(a, id) == head + WithoutId(a[1..], id);
    }
  }

  /** Removing an id nobody carries changes nothing. */
  lemma {:induction false} WithoutAbsentId(rs: seq<Ripple>, id: int)
    requires forall q :: q in rs ==> q.id != id
    ensures WithoutId(rs, id) == rs
    decreases |rs|
  {
    if |rs| > 0 {
      assert rs[0] in rs;
      assert forall q :: q in rs[1..] ==> q in rs;
      WithoutAbsentId(rs[1..], id);
      assert rs == [rs[0]] + rs[1..];
    }
  }

  /** A ripple added with a fresh id and later expired leaves the list as it was. */
  lemma AddThenExpire(s: CardState, rect: Rect, clientX: int, clientY: int, now: int)
    requires forall q :: q in s.ripples ==> q.id != now
    ensures RemoveRipple(HandleMouseMove(s, Advanced, Some(rect), clientX, clientY, now), now) == s
  {
    var added := Ripple(clientX - rect.left, clientY - rect.top, now);
    var t := HandleMouseMove(s, Advanced, Some(rect), clientX, clientY, now);
    assert t.ripples == s.ripples + [added] + [];
    RemoveUnique(s.ripples, added, []);
    assert s.ripples + [] == s.ripples;
  }

  /** Ripple ids strictly increase along the list. */
  predicate Ascending(rs: seq<Ripple>) {
    forall i, j :: 0 <= i < j < |rs| ==> rs[i].id < rs[j].id
  }

  /**
   * With ids in increasing order (a clock that moved on between ripples), a
   * timer removes exactly its own ripple and keeps the others in order.
   */
  lemma {:induction false} RemoveOwn(rs: seq<Ripple>, k: nat)
    requires Ascending(rs) && k < |rs|
    ensures WithoutId(rs, rs[k].id) == rs[..k] + rs[k + 1..]
  {
    OthersCarryOtherIds(rs, k);
    assert rs == rs[..k] + [rs[k]] + rs[k + 1..];
    RemoveUnique(rs[..k], rs[k], rs[k + 1..]);
  }

  /** Removing the id only `x` carries cuts `x` out and keeps both sides. */
  lemma RemoveUnique(pre: seq<Ripple>, x: Ripple, post: seq<Ripple>)
    requires forall q :: q in pre ==> q.id != x.id
    requires forall q :: q in post ==> q.id != x.id
    ensures WithoutId(pre + [x] + post, x.id) == pre + post
  {
    calc {
      WithoutId(pre + [x] + post, x.id);
      { WithoutIdAppend(pre + [x], post, x.id); }
      WithoutId(pre + [x], x.id) + WithoutId(post, x.id);
      { WithoutIdAppend(pre, [x], x.id); }
      WithoutId(pre, x.id) + WithoutId([x], x.id) + WithoutId(post, x.id);
      { WithoutAbsentId(pre, x.id); WithoutAbsentId(post, x.id); WithoutOwnId(x); }
      pre + [] + post;
    }
  }

  lemma WithoutOwnId(x: Ripple)
    ensures WithoutId([x], x.id) == []
  {
  }

  /** In an ascending list, no ripple but the one at `k` carries its id. */
  lemma OthersCarryOtherIds(rs: seq<Ripple>, k: nat)
    requires Ascending(rs) && k < |rs|
    ensures forall q :: q in rs[..k] ==> q.id != rs[k].id
    ensures forall q :: q in rs[k + 1..] ==> q.id != rs[k].id
  {
  }

  // ---------------------------------------------------------------------
  // Event sequences

  datatype CardEvent =
    | Move(card: Option<Rect>, clientX: int, clientY: int, now: int)
    | Leave
    | Expire(id: int)

  function Step(s: CardState, mode: Mode, e: CardEvent): (t: CardState)
    ensures e.Leave? ==> t == HandleMouseLeave(s, mode)
    ensures e.Expire? ==> t.coords == s.coords
    ensures e.Expire? ==> forall q :: q in t.ripples <==> q in s.ripples && q.id != e.id
    ensures e.Move? && e.card.Some? && mode == Simple ==>
      t.coords == Point(e.clientX - e.card.value.left, e.clientY - e.card.value.top) && t.ripples == s.ripples
    ensures e.Move? && e.card.Some? && mode == Advanced ==>
      t.coords == s.coords && |t.ripples| == |s.ripples| + 1
      && t.ripples[..|s.ripples|] == s.ripples && t.ripples[|s.ripples|] == Ripple(e.clientX - e.card.value.left, e.clientY - e.card.value.top, e.now)
    ensures e.Move? && e.card.None? ==> t == s
  {
    match e
    case Move(card, cx, cy, now) => HandleMouseMove(s, mode, card, cx, cy, now)
    case Leave => HandleMouseLeave(s, mode)
    case Expire(id) => RemoveRipple(s, id)
  }

  function Run(s: CardState, mode: Mode, es: seq<CardEvent>): CardState
    decreases |es|
  {
    if |es| == 0 then s else Run(Step(s, mode, es[0]), mode, es[1..])
  }

  /** A simple card never holds a ripple. */
  lemma {:induction false} SimpleHasNoRipples(s: CardState, es: seq<CardEvent>)
    requires s.ripples == []
    ensures Run(s, Simple, es).ripples == []
    decreases |es|
  {
    if |es| > 0 {
      SimpleHasNoRipples(Step(s, Simple, es[0]), es[1..]);
    }
  }

  /** An advanced card never moves its recorded pointer: it keeps the coordinates it started with. */
  lemma {:induction false} AdvancedKeepsCoords(s: CardState, es: seq<CardEvent>)
    ensures Run(s, Advanced, es).coords == s.coords
    decreases |es|
  {
    if |es| > 0 {
      AdvancedKeepsCoords(Step(s, Advanced, es[0]), es[1..]);
    }
  }

  /** Every move reads a clock later than every ripple still on the card. */
  predicate ClockAdvances(s: CardState, e: CardEvent) {
    e.Move? ==> forall q :: q in s.ripples ==> q.id < e.now
  }

  /** Expiring keeps the ids ascending: the survivors are a subsequence. */
  lemma {:induction false} WithoutIdAscending(rs: seq<Ripple>, id: int)
    requires Ascending(rs)
    ensures Ascending(WithoutId(rs, id))
    decreases |rs|
  {
    if |rs| > 0 {
      var tail := rs[1..];
      assert Ascending(tail) by {
        forall i, j | 0 <= i < j < |tail| ensures tail[i].id < tail[j].id {
          assert tail[i] == rs[i + 1] && tail[j] == rs[j + 1];
        }
      }
      WithoutIdAscending(tail, id);
      WithoutIdMembers(tail, id);
      var rest := WithoutId(tail, id);
      forall q | q in rest ensures rs[0].id < q.id {
        var j :| 0 <= j < |tail| && tail[j] == q;
        assert rs[j + 1] == q;
      }
      var r := WithoutId(rs, id);
      if rs[0].id != id {
        assert r == [rs[0]] + rest;
        forall i, j | 0 <= i < j < |r| ensures r[i].id < r[j].id {
          if i == 0 {
            assert r[j] == rest[j - 1] && r[j] in rest;
          } else {
            assert r[i] == rest[i - 1] && r[j] == rest[j - 1];
          }
        }
      } else {
        assert r == rest;
      }
    }
  }

  /** With an advancing clock, every event keeps the ripple ids ascending (so distinct). */
  lemma StepKeepsAscending(s: CardState, mode: Mode, e: CardEvent)
    requires Ascending(s.ripples) && ClockAdvances(s, e)
    ensures Ascending(Step(s, mode, e).ripples)
  {
    match e
    case Move(card, cx, cy, now) =>
      var t := Step(s, mode, e);
      if card.Some? && mode == Advanced {
        forall i, j | 0 <= i < j < |t.ripples| ensures t.ripples[i].id < t.ripples[j].id {
          if j == |s.ripples| {
            assert t.ripples[i] == s.ripples[i] && s.ripples[i] in s.ripples;
          } else {
            assert t.ripples[i] == s.ripples[i] && t.ripples[j] == s.ripples[j];
          }
        }
      }
    case Leave =>
    case Expire(id) => WithoutIdAscending(s.ripples, id);
  }
}

=== FILE: navbar.dfy ===
/**
 * The navigation bar's visibility state machine (src/components/navbar/navbar.jsx).
 *
 * The component keeps four pieces of React state (`isOpen`, `scrolled`,
 * `lastScrollY`, `showNav`) and one ref (`isNavLinkClickRef`), here the
 * `navLinkClick` flag. Every handler is a pure transition on `NavState`.
 */
module Navbar {

  datatype NavState = NavState(
    isOpen: bool,        // mobile menu open
    scrolled: bool,      // page scrolled past the "scrolled" styling threshold
    lastScrollY: int,    // scroll position seen by the previous scroll event
    showNav: bool,       // the bar is rendered
    navLinkClick: bool)  // a link click is scrolling the page: suppress hiding

  /** Below or at this position the bar is always shown. */
  const HideThreshold: int := 100
  /** Above this position the bar gets its blurred background. */
  const ScrolledThreshold: int := 10

  /** The state the component mounts with. */
  function Initial(): (s: NavState)
    ensures s.showNav && !s.isOpen && !s.navLinkClick
    ensures s.lastScrollY == 0 && !s.scrolled
  {
    NavState(false, false, 0, true, false)
  }

  /** `handleScroll`: one scroll event reporting position `y`. */
  function HandleScroll(s: NavState, y: int): (t: NavState)
    ensures t.lastScrollY == y
    ensures t.scrolled <==> y > ScrolledThreshold
    ensures t.isOpen == s.isOpen
    // near the top, or moving up: the bar comes back and the flag is spent
    ensures y <= HideThreshold || y < s.lastScrollY ==> t.showNav && !t.navLinkClick
    // moving down past the threshold hides the bar unless a link click is in flight
    ensures y > s.lastScrollY && y > HideThreshold && !s.navLinkClick ==> !t.showNav && !t.navLinkClick
    ensures y > s.lastScrollY && y > HideThreshold && s.navLinkClick ==> t.showNav == s.showNav && t.navLinkClick
    // no movement above the threshold leaves visibility and flag alone
    ensures y == s.lastScrollY && y > HideThreshold ==> t.showNav == s.showNav && t.navLinkClick == s.navLinkClick
    // the bar is hidden afterwards exactly in these cases
    ensures !t.showNav <==>
      y > HideThreshold && y >= s.lastScrollY && ((y > s.lastScrollY && !s.navLinkClick) || !s.showNav)
  {
    var s1 :=
      if y > s.lastScrollY && y > HideThreshold then
        (if !s.navLinkClick then s.(showNav := false) else s)
      else if y < s.lastScrollY || y <= HideThreshold then
        s.(showNav := true, navLinkClick := false)
      else
        s;
    s1.(scrolled := y > ScrolledThreshold, lastScrollY := y)
  }

  /** The menu button's `onClick`: negate `isOpen`. */
  function ToggleMenu(s: NavState): (t: NavState)
    ensures t.isOpen != s.isOpen
    ensures t.(isOpen := s.isOpen) == s
  {
    s.(isOpen := !s.isOpen)
  }

  // ---------------------------------------------------------------------
  // Link clicks

  /** What a click does to the page besides the component's state. */
  datatype LinkEffect =
    | Stay                   // nothing: default navigation prevented, no target
    | ScrollTo(id: string)   // smooth-scroll to the element with this id (after the menu closes)
    | Follow(href: string)   // the browser's default navigation to `href`

  datatype ClickResult = ClickResult(state: NavState, effect: LinkEffect)

  datatype NavItem = NavItem(name: string, href: string)

  /** The five entries of the bar, in display order. */
  const NavItems: seq<NavItem> := [
    NavItem("Home", "#home"),
    NavItem("Projects", "#projects"),
    NavItem("About", "#about"),
    NavItem("Contact", "#contact"),
    NavItem("Resume", "/Resume_nancy.pdf")
  ]

  /** `href.substring(1)`: drop the first character (of the empty string, nothing). */
  function TargetId(href: string): (id: string)
    ensures |href| > 0 ==> [href[0]] + id == href
    ensures |href| == 0 ==> id == ""
  {
    if |href| == 0 then "" else href[1..]
  }

  /** `document.getElementById(id)` finds an element; `ids` are the ids on the page. */
  function Resolves(ids: set<string>, id: string): (found: bool)
    ensures found ==> id in ids
    ensures id == "" ==> !found
  {
    id != "" && id in ids
  }

  /** An in-page link, `#section`. */
  predicate IsFragment(href: string) {
    |href| > 0 && href[0] == '#'
  }

  /**
   * `handleNavLinkClick` as written: the default navigation is prevented for
   * every link, then the link acts only if its target id is on the page.
   */
  function HandleNavLinkClick(s: NavState, href: string, ids: set<string>): (r: ClickResult)
    ensures Resolves(ids, TargetId(href)) ==>
      r.state == s.(navLinkClick := true, isOpen := false) && r.effect == ScrollTo(TargetId(href))
    ensures !Resolves(ids, TargetId(href)) ==> r.state == s && r.effect == Stay
    ensures !r.effect.Follow?
  {
    var id := TargetId(href);
    if Resolves(ids, id) then
      ClickResult(s.(navLinkClick := true, isOpen := false), ScrollTo(id))
    else
      ClickResult(s, Stay)
  }

  /**
   * The intended handler (not used by `Step`, which runs the handler as
   * written): in-page links behave as above, any other link
   * (the Resume PDF) is left to the browser's default navigation.
   */
  function FollowNavLink(s: NavState, href: string, ids: set<string>): (r: ClickResult)
    ensures IsFragment(href) ==> r == HandleNavLinkClick(s, href, ids)
    ensures !IsFragment(href) ==> r == ClickResult(s, Follow(href))
    ensures r.state.showNav == s.showNav && r.state.lastScrollY == s.lastScrollY
    ensures r.state.navLinkClick ==> s.navLinkClick || Resolves(ids, TargetId(href))
  {
    if IsFragment(href) then HandleNavLinkClick(s, href, ids) else ClickResult(s, Follow(href))
  }

  /** The ids the repository's sections and form fields carry. */
  const PageIds: set<string> :=
    {"home", "about", "tsparticles", "skills", "work-experience", "contact", "name", "email", "message"}

  /** The same page once the projects section carries the id its link points to. */
  const FixedPageIds: set<string> := PageIds + {"projects"}

  /** As written, the Resume entry does nothing at all when clicked. */
  lemma ResumeLinkIsDead(s: NavState, ids: set<string>)
    requires "Resume_nancy.pdf" !in ids
    ensures HandleNavLinkClick(s, NavItems[4].href, ids) == ClickResult(s, Stay)
  {
  }

  /** As written, the Projects entry finds no target on the page and does nothing. */
  lemma ProjectsLinkIsDead(s: NavState)
    ensures HandleNavLinkClick(s, NavItems[1].href, PageIds) == ClickResult(s, Stay)
  {
  }

  /** With the intended handler, every entry of the bar acts on a page that has its sections. */
  lemma EveryNavItemActs(s: NavState, ids: set<string>)
    requires {"home", "projects", "about", "contact"} <= ids
    ensures forall i :: 0 <= i < |NavItems| ==> FollowNavLink(s, NavItems[i].href, ids).effect != Stay
  {
  }

  /** The fixed page satisfies the premise of `EveryNavItemActs`. */
  lemma FixedPageHasEverySection(s: NavState)
    ensures forall i :: 0 <= i < |NavItems| ==> FollowNavLink(s, NavItems[i].href, FixedPageIds).effect != Stay
  {
    EveryNavItemActs(s, FixedPageIds);
  }

  /**
   * On links that are in-page or whose target is missing (every entry of the
   * bar on this page), the correction changes what the browser does, never
   * the component's state.
   */
  lemma FixKeepsState(s: NavState, href: string, ids: set<string>)
    requires IsFragment(href) || !Resolves(ids, TargetId(href))
    ensures FollowNavLink(s, href, ids).state == HandleNavLinkClick(s, href, ids).state
  {
  }

  // ---------------------------------------------------------------------
  // Event sequences

  /**
   * `ExitDone` is the end of the bar's exit animation: `AnimatePresence`
   * keeps the bar in the page, clickable, from the moment `showNav` turns
   * false until then.
   */
  datatype Event = Scroll(y: int) | LinkClick(href: string) | MenuButton | ExitDone

  /** The component's state together with whether the bar is in the page. */
  datatype Bar = Bar(state: NavState, mounted: bool)

  function Mount(): (b: Bar)
    ensures b.state == Initial() && b.mounted
  {
    Bar(Initial(), true)
  }

  /**
   * One event. Links and the menu button live inside the bar, so they can be
   * clicked exactly while the bar is mounted, which includes its exit
   * animation after `showNav` turned false.
   */
  function Step(b: Bar, e: Event, ids: set<string>): (c: Bar)
    ensures !e.Scroll? && !e.ExitDone? && !b.mounted ==> c == b
    ensures e.Scroll? ==> c.state.lastScrollY == e.y && (c.mounted <==> b.mounted || c.state.showNav)
    ensures !e.Scroll? ==>
      c.state.showNav == b.state.showNav && c.state.lastScrollY == b.state.lastScrollY && c.state.scrolled == b.state.scrolled
    ensures e.ExitDone? ==> c.state == b.state && (c.mounted <==> b.state.showNav && b.mounted)
    ensures e.LinkClick? && b.mounted ==> c.mounted && c.state == HandleNavLinkClick(b.state, e.href, ids).state
    ensures e.MenuButton? && b.mounted ==> c.mounted && c.state == ToggleMenu(b.state)
    ensures e.Scroll? ==> c.state == HandleScroll(b.state, e.y)
  {
    match e
    case Scroll(y) =>
      var t := HandleScroll(b.state, y);
      Bar(t, b.mounted || t.showNav)
    case LinkClick(href) => if b.mounted then b.(state := HandleNavLinkClick(b.state, href, ids).state) else b
    case MenuButton => if b.mounted then b.(state := ToggleMenu(b.state)) else b
    case ExitDone => if b.state.showNav then b else b.(mounted := false)
  }

  function Run(b: Bar, es: seq<Event>, ids: set<string>): Bar
    decreases |es|
  {
    if |es| == 0 then b else Run(Step(b, es[0], ids), es[1..], ids)
  }

  /**
   * What holds in every reachable state: `scrolled` agrees with the last
   * position, the bar is shown near the top, and a shown bar is in the page.
   */
  predicate Inv(b: Bar) {
    && (b.state.scrolled <==> b.state.lastScrollY > ScrolledThreshold)
    && (b.state.lastScrollY <= HideThreshold ==> b.state.showNav)
    && (b.state.showNav ==> b.mounted)
  }

  lemma StepPreservesInv(b: Bar, e: Event, ids: set<string>)
    requires Inv(b)
    ensures Inv(Step(b, e, ids))
  {
  }

  lemma {:induction false} RunPreservesInv(b: Bar, es: seq<Event>, ids: set<string>)
    requires Inv(b)
    ensures Inv(Run(b, es, ids))
    decreases |es|
  {
    if |es| > 0 {
      StepPreservesInv(b, es[0], ids);
      RunPreservesInv(Step(b, es[0], ids), es[1..], ids);
    }
  }

  /** Every state reachable from mounting satisfies `Inv`. */
  lemma ReachableInv(es: seq<Event>, ids: set<string>)
    ensures Inv(Run(Mount(), es, ids))
  {
    RunPreservesInv(Mount(), es, ids);
  }

  /**
   * A link clicked during the exit animation sets the suppression flag
   * while the bar is hidden; a later downward scroll then leaves it hidden
   * and the flag set, until an upward scroll or the top clears it.
   */
  lemma ClickDuringExit(s: NavState, href: string, ids: set<string>, y: int)
    requires !s.showNav && Resolves(ids, TargetId(href))
    requires y > s.lastScrollY && y > HideThreshold
    ensures var c := Step(Bar(s, true), LinkClick(href), ids);
      !c.state.showNav && c.state.navLinkClick
      && !HandleScroll(c.state, y).showNav && HandleScroll(c.state, y).navLinkClick
  {
  }

  /**
   * Scrolling down past the threshold hides the bar (when no link click is in
   * flight), and any upward scroll afterwards brings it back.
   */
  lemma HideThenShow(s: NavState, down: int, up: int)
    requires !s.navLinkClick
    requires down > s.lastScrollY && down > HideThreshold
    requires up < down
    ensures !HandleScroll(s, down).showNav
    ensures HandleScroll(HandleScroll(s, down), up).showNav
  {
  }

  /** Repeating a scroll event at the same position changes nothing more. */
  lemma ScrollIdempotent(s: NavState, y: int)
    ensures HandleScroll(HandleScroll(s, y), y) == HandleScroll(s, y)
  {
  }

  /** Positions above the threshold that never go back up. */
  predicate DownwardAbove(from: int, ys: seq<int>) {
    && (forall i :: 0 <= i < |ys| ==> ys[i] > HideThreshold)
    && (|ys| > 0 ==> ys[0] >= from)
    && (forall i :: 0 < i < |ys| ==> ys[i - 1] <= ys[i])
  }

  function Scrolls(s: NavState, ys: seq<int>): NavState
    decreases |ys|
  {
    if |ys| == 0 then s else Scrolls(HandleScroll(s, ys[0]), ys[1..])
  }

  /**
   * The purpose of the flag: after a link click that found its target, the
   * programmatic scroll down the page (however many events it takes) does not
   * hide the bar, and the flag stays set until the page moves up or nears the top.
   */
  lemma {:induction false} ClickSuppressesHide(s: NavState, ys: seq<int>)
    requires s.showNav && s.navLinkClick
    requires DownwardAbove(s.lastScrollY, ys)
    ensures Scrolls(s, ys).showNav && Scrolls(s, ys).navLinkClick
    decreases |ys|
  {
    if |ys| > 0 {
      var t := HandleScroll(s, ys[0]);
      assert DownwardAbove(t.lastScrollY, ys[1..]) by {
        assert forall i :: 0 < i < |ys[1..]| ==> ys[1..][i - 1] == ys[i];
      }
      ClickSuppressesHide(t, ys[1..]);
    }
  }
}

=== FILE: optional.dfy ===
/** The JavaScript `null` of the portfolio's state records, as a value. */
module Optional {

  datatype Option<+T> = None | Some(value: T)

  /** JavaScript truthiness of an optional string: `null` and `""` are both falsy. */
  predicate Truthy(s: Option<string>) {
    s.Some? && s.value != ""
  }
}

=== FILE: work.dfy ===
/**
 * The work-experience timeline (src/components/work/Work.jsx): the ref list
 * the scroll animations iterate over, and the alternating card layout.
 *
 * A DOM element is known by its identity, here an integer handle; a ref
 * callback called with `null` (React detaching the previous render's
 * callback) is `None`.
 */
module Work {
  import opened Optional

  /** One mounted DOM node; `includes` compares nodes by identity. */
  datatype Element = Element(handle: int)

  predicate NoDuplicates(xs: seq<Element>) {
    forall i, j :: 0 <= i < j < |xs| ==> xs[i] != xs[j]
  }

  /** `addToRefs`: ignore `null`, append an element not yet in the list. */
  function AddToRefs(refs: seq<Element>, el: Option<Element>): (r: seq<Element>)
    ensures el.None? ==> r == refs
    ensures el.Some? ==> el.value in r
    ensures el.Some? && el.value !in refs ==> r == refs + [el.value]
    ensures el.Some? && el.value in refs ==> r == refs
    ensures forall x: Element :: x in r <==> x in refs || el == Some(x)
    ensures NoDuplicates(refs) ==> NoDuplicates(r)
  {
    if el.Some? && el.value !in refs then refs + [el.value] else refs
  }

  /** Several ref callback calls, in the order React makes them: the list only ever grows at its end. */
  function Register(refs: seq<Element>, calls: seq<Option<Element>>): (r: seq<Element>)
    ensures |refs| <= |r| <= |refs| + |calls|
    ensures r[..|refs|] == refs
    decreases |calls|
  {
    if |calls| == 0 then refs else Register(AddToRefs(refs, calls[0]), calls[1..])
  }

  /** After the calls, the list holds what it held plus every non-null element passed, each once. */
  lemma {:induction false} RegisterMembers(refs: seq<Element>, calls: seq<Option<Element>>)
    ensures forall x: Element :: x in Register(refs, calls) <==> x in refs || Some(x) in calls
    ensures NoDuplicates(refs) ==> NoDuplicates(Register(refs, calls))
    decreases |calls|
  {
    if |calls| > 0 {
      RegisterMembers(AddToRefs(refs, calls[0]), calls[1..]);
      assert forall x: Element :: Some(x) in calls <==> calls[0] == Some(x) || Some(x) in calls[1..];
    }
  }

  /**
   * One render: the list is reset to empty and then filled by this render's
   * callback calls; the previous render's list `prev` plays no part.
   */
  function RenderRefs(prev: seq<Element>, calls: seq<Option<Element>>): (r: seq<Element>)
    ensures forall x: Element :: x in r <==> Some(x) in calls
    ensures NoDuplicates(r)
  {
    RegisterMembers([], calls);
    Register([], calls)
  }

  /** Calls for elements already registered change nothing. */
  lemma {:induction false} RegisterKnown(refs: seq<Element>, calls: seq<Option<Element>>)
    requires forall x: Element :: Some(x) in calls ==> x in refs
    ensures Register(refs, calls) == refs
    decreases |calls|
  {
    if |calls| > 0 {
      assert AddToRefs(refs, calls[0]) == refs;
      RegisterKnown(refs, calls[1..]);
    }
  }

  /** Running the same callback calls twice in one render does not grow the list. */
  lemma RegisterIdempotent(refs: seq<Element>, calls: seq<Option<Element>>)
    ensures Register(Register(refs, calls), calls) == Register(refs, calls)
  {
    RegisterMembers(refs, calls);
    RegisterKnown(Register(refs, calls), calls);
  }

  /** The calls for a list of elements, with no `null` among them. */
  function Attach(xs: seq<Element>): (calls: seq<Option<Element>>)
    ensures |calls| == |xs|
    ensures forall i :: 0 <= i < |xs| ==> calls[i] == Some(xs[i])
  {
    seq(|xs|, i requires 0 <= i < |xs| => Some(xs[i]))
  }

  /** Attaching a fresh first element appends it and leaves the rest of the calls. */
  lemma AttachFresh(refs: seq<Element>, xs: seq<Element>)
    requires |xs| > 0 && xs[0] !in refs
    ensures Register(refs, Attach(xs)) == Register(refs + [xs[0]], Attach(xs[1..]))
  {
    var calls := Attach(xs);
    assert calls[1..] == Attach(xs[1..]);
  }

  /** The tail of a duplicate-free list is duplicate-free and avoids its head. */
  lemma TailDistinct(xs: seq<Element>)
    requires |xs| > 0 && NoDuplicates(xs)
    ensures NoDuplicates(xs[1..])
    ensures xs[0] !in xs[1..]
  {
  }

  /**
   * Distinct new elements are appended in call order, so one card per job,
   * attached in list order, yields the cards in timeline order.
   */
  lemma {:induction false} RegisterDistinct(refs: seq<Element>, xs: seq<Element>)
    requires NoDuplicates(xs)
    requires forall x: Element :: x in xs ==> x !in refs
    ensures Register(refs, Attach(xs)) == refs + xs
    decreases |xs|
  {
    if |xs| > 0 {
      var rest := xs[1..];
      var refs' := refs + [xs[0]];
      TailDistinct(xs);
      TailFresh(refs, xs);
      calc {
        Register(refs, Attach(xs));
        { AttachFresh(refs, xs); }
        Register(refs', Attach(rest));
        { RegisterDistinct(refs', rest); }
        refs' + rest;
        { assert xs == [xs[0]] + rest; }
        refs + xs;
      }
    }
  }

  /** The elements after the head are new to the list extended by the head. */
  lemma TailFresh(refs: seq<Element>, xs: seq<Element>)
    requires |xs| > 0 && xs[0] !in xs[1..]
    requires forall x: Element :: x in xs ==> x !in refs
    ensures forall x: Element :: x in xs[1..] ==> x !in refs + [xs[0]]
  {
  }

  /** A render whose callbacks each receive a distinct card lists exactly those cards, in order. */
  lemma RenderListsCards(prev: seq<Element>, cards: seq<Element>)
    requires NoDuplicates(cards)
    ensures RenderRefs(prev, Attach(cards)) == cards
  {
    RegisterDistinct([], cards);
  }

  // ---------------------------------------------------------------------
  // Layout

  /** `md:flex-row` or `md:flex-row-reverse` on the entry. */
  datatype Direction = Row | RowReverse
  /** `md:pr-10 md:text-right` or `md:pl-10 md:text-left` on the card. */
  datatype TextSide = AlignRight | AlignLeft

  datatype Layout = Layout(direction: Direction, text: TextSide)

  /** The classes chosen for the entry at position `index`. */
  function CardLayout(index: nat): (l: Layout)
    ensures l.direction == Row <==> index % 2 == 0
    ensures l.text == AlignRight <==> index % 2 == 0
  {
    if index % 2 == 0 then Layout(Row, AlignRight) else Layout(RowReverse, AlignLeft)
  }

  /** Consecutive entries sit on opposite sides; every other entry repeats. */
  lemma LayoutAlternates(index: nat)
    ensures CardLayout(index + 1).direction != CardLayout(index).direction
    ensures CardLayout(index + 1).text != CardLayout(index).text
    ensures CardLayout(index + 2) == CardLayout(index)
  {
  }
}
